=== FILE: README.md ===
# RFID door lock: lock-control model

A Dafny model of the lock-control logic of an ESP8266 RFID door lock (`src/main.cpp`).
The firmware reads proximity cards and publishes their UIDs over MQTT. It toggles a
motorised lock when the broker sends `GRANTED` on `doorlock` or when the manual input
reads HIGH. It keeps `lock_status` in EEPROM across power cycles and lights a pilot
output while locked.

The model is functional. Every state is an immutable record, and every firmware routine
is a pure function from the old record to the new one.

- `base.dfy`: module `Bytes` holds the C `byte` and the `int` to `uint8_t` conversion.
  Module `Options` holds `Option`.
- `eeprom.dfy` (`Eeprom`): the emulated EEPROM. Reads and writes act on a RAM copy.
  `commit` copies that copy to the flash image, and `begin` loads flash back on boot.
- `hex.dfy` (`Hex`): `getByteString` as written. It appends `" 0"` or `" "`, then
  `String(b, HEX)`, then upper-cases the result. Two more definitions sit beside it.
  `Format` is the canonical rendering: a space plus two upper-case digits per byte.
  `Parse` is its inverse.
- `actuator.dfy` (`Actuator`): `lock`, `unlock`, `stop`, `saveLockStatus`, and the
  toggle rule. The 400 ms hold is recorded as a `Pulse`, the pair of output levels
  held during the throw. The device keeps a log of these pulses.
- `commands.dfy` (`Commands`): `onMQTTMessage`, including its C-string comparison.
- `scanner.dfy` (`Scanner`): the publish that `readRFID` issues, routed by `rfid_mode`.
- `connectivity.dfy` (`Connectivity`): the retry loop of `connectWiFi` and the decisions
  of `connectMQTT`.
- `controller.dfy` (`Controller`): `setup()`, and `loop()` split into its four steps.
  It also holds toggle parity over event sequences, power-cycle recovery, and two
  end-to-end scenarios.

Everything the hardware or the network reports is an explicit input:

- Card reads are a `CardRead`: no card, a failed serial read, or a UID.
- WiFi status is a script of answers. `wifi[k]` answers the k-th `WiFi.status()`
  query, and a query past the end reads as down.
- The result of `mqtt.connect` is a boolean.
- A broker-link drop between ticks is a flag.
- `mqtt.loop()` delivers at most one message per tick.
- The MANUAL_PIN level is a `Level`.

Delays are no-ops.

Behaviour of the firmware worth knowing:

- `getByteString` puts a space before every byte, the first one included:
  `[0x04, 0x1A, 0xFF]` gives `" 04 1A FF"`.
- The topics are `doorlock`, `doorlock/read`, `doorlock/insert` and
  `doorlock/insert/status`.
- The payload test is a `strcmp` on a zero-filled 30-byte buffer. So `"GRANTED"`
  followed by a NUL and anything else also toggles the lock (`Commands.AuthorizesExactly`).
- `connectMQTT` queries WiFi status again before it connects. So "WiFi up, broker down"
  gives a connect attempt only if that second query also reports up.
- The retry loop's condition evaluates `WiFi.status()` before `try_counter < 10`. So the
  check that finds the counter at 10 still queries the status.

## Model

| member | source | states |
|---|---|---|
| Bytes.ToByte | src/main.cpp:72 | the `int` passed to `EEPROM.write` arrives as the unique byte congruent to it modulo 256, and unchanged when it is already 0..255 |
| Eeprom.Begin | src/main.cpp:337 | after `EEPROM.begin` the store holds 512 bytes, reads return the flash contents, and nothing is pending |
| Eeprom.Write | src/main.cpp:72 | a write changes the read-back value of its own address only, and leaves flash untouched |
| Eeprom.Read | src/main.cpp:339 | a read inside the begun sector returns the RAM copy, so a written but uncommitted byte is already visible; an address outside it reads as 0 |
| Eeprom.Commit | src/main.cpp:73 | after commit the flash image equals the RAM copy, and reads are unchanged |
| Eeprom.CommittedWriteSurvivesPowerCycle | src/main.cpp:70-74 | a byte written and committed is read back after a reboot's `EEPROM.begin` |
| Eeprom.UncommittedWriteIsLost | src/main.cpp:72-73 | without the commit, a reboot does not see the write |
| Hex.FormatAt | src/main.cpp:55-65 | byte i of the UID occupies characters 3i..3i+2 of the canonical rendering |
| Hex.FormatCells | src/main.cpp:55-65 | every byte is rendered as a space followed by two upper-case, zero-padded hex digits |
| Hex.DumpMatchesFormat | src/main.cpp:57-63 | the loop as written (`" 0"`/`" "` prefix, unpadded lower-case `String(b, HEX)`, then `toUpperCase`) equals the canonical rendering |
| Hex.Dump | src/main.cpp:57-62 | every loop iteration appends exactly three characters, so the text before upper-casing has length 3 times the UID length |
| Hex.GetByteString | src/main.cpp:55-65 | the result is the canonical rendering, of length 3 times the UID length, with a leading space |
| Hex.ByteStringRoundTrip | src/main.cpp:55-65 | parsing the rendered text gives back the UID bytes |
| Hex.ByteStringCanonical | src/main.cpp:55-65 | any text that parses to a UID is exactly that UID's rendering, so the rendering is injective |
| Hex.ByteStringExamples | src/main.cpp:55-65 | `[0x04,0x1A,0xFF]` renders as `" 04 1A FF"`, `[0x00]` as `" 00"`, and the empty UID as `""` |
| Actuator.SaveLockStatus | src/main.cpp:70-74 | the byte at `status_address` equals `lock_status` and is committed; nothing else in the device or at other addresses changes |
| Actuator.Stop | src/main.cpp:79-83 | both motor outputs are LOW and the status is persisted; status, pilot and throw history are unchanged |
| Actuator.Lock | src/main.cpp:88-96 | status LOCKED, both outputs LOW, byte 1 written and committed, exactly one throw with LOCK high and UNLOCK low, other addresses untouched |
| Actuator.Unlock | src/main.cpp:101-109 | status UNLOCKED, both outputs LOW, byte 0 written and committed, exactly one throw with UNLOCK high and LOCK low, other addresses untouched |
| Actuator.Toggle | src/main.cpp:135-141 | the status always changes, any non-LOCKED status becomes LOCKED, the result is quiescent and persisted, and one throw in the new direction is logged |
| Actuator.LockTwice | src/main.cpp:88-96 | locking twice logs two throws but leaves the same state as locking once |
| Actuator.UnlockTwice | src/main.cpp:101-109 | unlocking twice logs two throws but leaves the same state as unlocking once |
| Actuator.ToggleTwice | src/main.cpp:135-141 | from a valid state two toggles restore everything except the throw history |
| Commands.CString | src/main.cpp:122-133 | the compared string is the longest NUL-free prefix of the zero-padded payload |
| Commands.HandleMessage | src/main.cpp:117-144 | an authorizing message applies the toggle rule; any other topic or payload leaves the device unchanged |
| Commands.AuthorizesExactly | src/main.cpp:122-133 | a message authorizes if and only if its topic is `doorlock` and its payload is `GRANTED`, or `GRANTED` followed by a NUL |
| Commands.OtherTopicIgnored | src/main.cpp:131-143 | a message on any other topic, the subscribed status topic included, changes nothing |
| Commands.GrantedToggles | src/main.cpp:131-143 | `GRANTED` on `doorlock` unlocks a locked device and locks any other, quiescent and persisted |
| Scanner.ReadRFID | src/main.cpp:290-321 | there is a publish exactly when a card was read. Its payload is the UID rendering and parses back to the UID. It goes to `doorlock/read` exactly in READ mode and to `doorlock/insert` exactly otherwise |
| Connectivity.RetryLoop | src/main.cpp:253-259 | the loop runs at most 10 iterations. It stops at the first "connected" answer or at 10, and every earlier answer was "not connected" |
| Connectivity.ConnectMqtt | src/main.cpp:150-170 | a connect is attempted exactly when WiFi reports up and the session is down. Nothing changes otherwise. A successful connect subscribes to `doorlock` and `doorlock/insert/status` |
| Connectivity.ConnectWifi | src/main.cpp:240-270 | at most 10 loop iterations, all on "not connected" answers. A broker connect is attempted exactly when the final status check and `connectMQTT`'s own check report up and the session is down. An attempt connects, freshly subscribed, exactly when it is accepted, and the session changes in no other way |
| Controller.Setup | src/main.cpp:326-347 | a stored 1 boots LOCKED with a lock throw and any other byte boots UNLOCKED with an unlock throw. Afterwards the persisted byte equals the status, other bytes keep their flash values, the session is the one `connectWiFi` left, and nothing was published |
| Controller.Scan | src/main.cpp:353 | at most one publish per tick, and one exactly when a card was read while connected, with the routed topic and the UID text; the device is untouched |
| Controller.Supervise | src/main.cpp:355-368 | WiFi down: `connectWiFi` runs. Its iterations stop at the first "up" answer or at 10, and the broker is retried exactly when the final check and `connectMQTT`'s own check report up and the session is down. No message is handled. WiFi up and connected: only `mqtt.loop()` and the delivered message. WiFi up and not connected: at most one connect attempt. In either branch an attempt leaves the session connected and subscribed exactly when the connect is accepted |
| Controller.Tick | src/main.cpp:352-388 | the scan runs before the connectivity step. A card publish is appended exactly when a card is read, the broker was not lost and the session was connected at tick start, so a card read while disconnected is lost even if the same tick reconnects. The published item is readRFID's. If WiFi is up and the session survived, it is kept. If WiFi is up and the session was lost or absent, it ends connected iff the second status query is up and the broker accepts. If WiFi is down, the session is what connectWiFi (from status query 1) makes of it. At the end PILOT is HIGH iff the status is LOCKED, the invariant (status 0/1, outputs LOW, byte persisted) is kept and the mode never changes |
| Controller.Override | src/main.cpp:370-379 | a HIGH input applies the shared toggle rule to the device (status flipped, one throw in the direction Actuator.Toggle fixes) and leaves the session, mode and publishes alone, keeping the invariant; a LOW input changes nothing |
| Controller.Indicate | src/main.cpp:381-387 | PILOT is set HIGH exactly when the status is LOCKED, and nothing else changes |
| Controller.TickOverride | src/main.cpp:370-379 | a HIGH manual input toggles the status after the connectivity step exactly once, and a LOW input leaves it |
| Controller.QuietTick | src/main.cpp:352-388 | with no authorizing message and no override, the only thing that changes in the device is the pilot output |
| Controller.RunParity | src/main.cpp:131-143 | over any sequence of messages and presses from a valid state, the status returns to its start exactly when an even number of events toggled |
| Controller.PowerCycle | src/main.cpp:339-346 | rebooting from the committed flash of a valid state restores its lock status |
| Controller.SetupNormalises | src/main.cpp:339-346 | a stored byte other than 1 boots UNLOCKED and 0 is written back to flash |
| Controller.GrantedScenario | src/main.cpp:326-388 | boot LOCKED with the broker reachable, then `GRANTED` on `doorlock` in one tick: unlock throw, 0 persisted, pilot LOW |
| Controller.PressScenario | src/main.cpp:370-387 | a manual press while UNLOCKED locks, persists 1 and lights the pilot |

## Left out

- OTA (`setupOTAServer`, `ArduinoOTA.handle`): library wiring and logging that never touches the lock state.
- `setupRFID`, `PCD_Init` and the MFRC522 protocol: the reader's answer is an input (`CardRead`).
- `WiFi.config`, `WiFi.begin`, static addresses, `mqtt.setServer` and `mqtt.setCallback`: configuration calls whose results the firmware only logs or ignores.
- Serial logging.
- The timing of `delay()`: the 400 ms hold is recorded as a pulse, and the 1 s debounce and the WiFi waits are no-ops. The debounce window itself is therefore not modelled: a HIGH input on the next tick toggles again.
- Commands.HandleMessage: payloads of 30 bytes or more are excluded by a precondition. There the copy overruns `_message` and the `uint8_t` index would wrap; neither is modelled.
- Hex.GetByteString: the UID length is unbounded. The source passes it as a `byte`, and MFRC522 UIDs are at most 10 bytes long.
- PubSubClient internals (keep-alive, packet parsing): `mqtt.loop()` is modelled as delivering at most one message. A publish succeeds exactly when the session is connected.
- A crash between the pulse and the commit: the model's steps are atomic, so this is not modelled.
- Eeprom.Commit: modelled as always reaching flash. `EEPROM.commit()` returns false when the flash erase or write fails, and `saveLockStatus` discards that result. So `Persisted` after a throw, and the recovery in `Controller.PowerCycle`, hold only when the commit succeeds.
- Connectivity.ConnectMqtt: the results of the two `mqtt.subscribe` calls are discarded by the firmware. A successful connect is modelled as subscribed to both topics, which assumes both subscribe requests succeed.
- The EEPROM emulation is modelled only as far as the firmware uses it: one RAM copy and one flash image, with out-of-range reads returning 0 and out-of-range writes ignored.

=== FILE: actuator.dfy ===
/**
 * The lock actuator: `lock()`, `unlock()`, `stop()` and `saveLockStatus()`. Each
 * throw drives one output high and the other low, holds them for the 400 ms pulse,
 * then sets both low and writes and commits `lock_status` to the EEPROM byte at
 * `status_address`.
 */
module Actuator {
  import opened Bytes
  import Eeprom

  /** `STATUS_LOCKED` and `STATUS_UNLOCKED`, the values of the C `int lock_status`. */
  const StatusLocked: int := 1
  const StatusUnlocked: int := 0

  /** `status_address`: where the lock status is kept in the EEPROM. */
  const StatusAddress: int := 0

  datatype Level = Low | High

  /** The levels of LOCK_PIN and UNLOCK_PIN held for the duration of one throw. */
  datatype Pulse = Pulse(lockPin: Level, unlockPin: Level)

  const LockPulse := Pulse(High, Low)
  const UnlockPulse := Pulse(Low, High)

  /**
   * The firmware's state: `lock_status`, the three outputs, the EEPROM, and the
   * history of throws (one entry per 400 ms hold, in order).
   */
  datatype Device = Device(
    lockStatus: int,
    lockPin: Level,
    unlockPin: Level,
    pilotPin: Level,
    store: Eeprom.Store,
    pulses: seq<Pulse>)

  /** Neither motor output is driven. */
  predicate Quiescent(d: Device)
  {
    d.lockPin == Low && d.unlockPin == Low
  }

  /** The byte at `status_address` is `lock_status` and has reached flash. */
  predicate Persisted(d: Device)
  {
    && Eeprom.Valid(d.store)
    && Eeprom.Committed(d.store)
    && Eeprom.Read(d.store, StatusAddress) == ToByte(d.lockStatus)
  }

  /** The state the firmware keeps between throws. */
  predicate Valid(d: Device)
  {
    && (d.lockStatus == StatusLocked || d.lockStatus == StatusUnlocked)
    && Quiescent(d)
    && Persisted(d)
  }

  /** `saveLockStatus()`: `EEPROM.write(status_address, lock_status)` then `EEPROM.commit()`. */
  function SaveLockStatus(d: Device): (r: Device)
    requires Eeprom.Valid(d.store)
    ensures Persisted(r)
    ensures r == d.(store := r.store)
    ensures forall a :: a != StatusAddress ==> Eeprom.Read(r.store, a) == Eeprom.Read(d.store, a)
  {
    d.(store := Eeprom.Commit(Eeprom.Write(d.store, StatusAddress, ToByte(d.lockStatus))))
  }

  /** `stop()`: both outputs low, then save. */
  function Stop(d: Device): (r: Device)
    requires Eeprom.Valid(d.store)
    ensures Quiescent(r) && Persisted(r)
    ensures r.lockStatus == d.lockStatus && r.pilotPin == d.pilotPin && r.pulses == d.pulses
  {
    SaveLockStatus(d.(lockPin := Low, unlockPin := Low))
  }

  /** `delay(400)`: the current output levels are held for one pulse. */
  function Hold(d: Device): (r: Device)
  {
    d.(pulses := d.pulses + [Pulse(d.lockPin, d.unlockPin)])
  }

  /** `lock()`. */
  function Lock(d: Device): (r: Device)
    requires Eeprom.Valid(d.store)
    ensures Valid(r) && r.lockStatus == StatusLocked
    ensures Eeprom.Read(r.store, StatusAddress) == StatusLocked
    ensures r.pulses == d.pulses + [LockPulse]
    ensures r.pilotPin == d.pilotPin
    ensures forall a :: a != StatusAddress ==> Eeprom.Read(r.store, a) == Eeprom.Read(d.store, a)
  {
    Stop(Hold(d.(lockPin := High, unlockPin := Low, lockStatus := StatusLocked)))
  }

  /** `unlock()`. */
  function Unlock(d: Device): (r: Device)
    requires Eeprom.Valid(d.store)
    ensures Valid(r) && r.lockStatus == StatusUnlocked
    ensures Eeprom.Read(r.store, StatusAddress) == StatusUnlocked
    ensures r.pulses == d.pulses + [UnlockPulse]
    ensures r.pilotPin == d.pilotPin
    ensures forall a :: a != StatusAddress ==> Eeprom.Read(r.store, a) == Eeprom.Read(d.store, a)
  {
    Stop(Hold(d.(lockPin := Low, unlockPin := High, lockStatus := StatusUnlocked)))
  }

  /**
   * The toggle rule shared by the MQTT handler and the manual override:
   * locked becomes unlocked, any other status becomes locked.
   */
  function Toggle(d: Device): (r: Device)
    requires Eeprom.Valid(d.store)
    ensures Valid(r)
    ensures r.lockStatus != d.lockStatus
    ensures d.lockStatus != StatusLocked ==> r.lockStatus == StatusLocked
    ensures r.pulses == d.pulses + [if r.lockStatus == StatusLocked then LockPulse else UnlockPulse]
    ensures r.pilotPin == d.pilotPin
  {
    if d.lockStatus == StatusLocked then Unlock(d) else Lock(d)
  }

  /** Locking twice gives two throws but the same state as locking once. */
  lemma LockTwice(d: Device)
    requires Eeprom.Valid(d.store)
    ensures Lock(Lock(d)) == Lock(d).(pulses := d.pulses + [LockPulse, LockPulse])
  {
  }

  /** Unlocking twice gives two throws but the same state as unlocking once. */
  lemma UnlockTwice(d: Device)
    requires Eeprom.Valid(d.store)
    ensures Unlock(Unlock(d)) == Unlock(d).(pulses := d.pulses + [UnlockPulse, UnlockPulse])
  {
  }

  /** Two toggles restore everything but the throw history. */
  lemma ToggleTwice(d: Device)
    requires Valid(d)
    ensures Toggle(Toggle(d)).(pulses := d.pulses) == d
  {
  }
}

=== FILE: base.dfy ===
/** Small shared vocabulary: the C byte and an optional value. */
module Bytes {

  /** An unsigned 8-bit value, the Arduino `byte` / `uint8_t`. */
  type byte = b: int | 0 <= b < 256

  /** The implicit C conversion of an `int` to `uint8_t`: the value modulo 256. */
  function ToByte(x: int): (b: byte)
    ensures (x - b) % 256 == 0
    ensures 0 <= x < 256 ==> b == x
  {
    x % 256
  }
}

module Options {

  datatype Option<+T> = None | Some(value: T)
}

=== FILE: commands.dfy ===
/**
 * `onMQTTMessage`: the payload is copied into a zero-filled 30-byte buffer and
 * compared with `strcmp`, so only the part before the first NUL takes part in the
 * comparison; on topic "doorlock" with "GRANTED" the lock toggles.
 */
module Commands {
  import opened Actuator
  import Eeprom

  const CommandTopic := "doorlock"
  const StatusTopic := "doorlock/insert/status"
  const Granted := "GRANTED"

  /** The size of the `_message` buffer the payload is copied into. */
  const MessageBuffer: nat := 30

  /** One inbound publication, as the broker client hands it to the callback. */
  datatype Message = Message(topic: string, payload: string)

  /** The C string held by a NUL-padded buffer: everything before the first NUL. */
  function CString(s: string): (r: string)
    ensures |r| <= |s| && r == s[..|r|]
    ensures forall i :: 0 <= i < |r| ==> r[i] != '\0'
    ensures |r| < |s| ==> s[|r|] == '\0'
  {
    if |s| == 0 || s[0] == '\0' then "" else [s[0]] + CString(s[1..])
  }

  /**
   * Both `strcmp` tests of the handler succeed. The topic is compared whole: MQTT
   * topic names cannot contain NUL, and both subscriptions are wildcard-free, so the
   * delivered topic is NUL-free and whole equality is what `strcmp` decides.
   */
  predicate Authorizes(m: Message)
  {
    m.topic == CommandTopic && CString(m.payload) == Granted
  }

  /** `onMQTTMessage(topic, payload, length)`. */
  function HandleMessage(d: Device, m: Message): (r: Device)
    requires |m.payload| < MessageBuffer
    requires Eeprom.Valid(d.store)
    ensures Authorizes(m) ==> r == Toggle(d)
    ensures Authorizes(m) ==> Valid(r) && r.lockStatus != d.lockStatus && |r.pulses| == |d.pulses| + 1
    ensures !Authorizes(m) ==> r == d
  {
    if m.topic == CommandTopic && CString(m.payload) == Granted then Toggle(d) else d
  }

  /**
   * What the comparison accepts: the command topic, and a payload that is "GRANTED"
   * or "GRANTED" followed by a NUL and anything after it.
   */
  lemma AuthorizesExactly(m: Message)
    ensures Authorizes(m) <==>
      m.topic == CommandTopic
      && (m.payload == Granted
          || (|m.payload| > |Granted| && m.payload[..|Granted|] == Granted && m.payload[|Granted|] == '\0'))
  {
    var p := m.payload;
    if p == Granted {
      assert forall i :: 0 <= i < |p| ==> p[i] != '\0';
      assert CString(p) == p;
    }
    if CString(p) == Granted {
      assert p[..|Granted|] == Granted;
    }
  }

  /** Any other topic, including the subscribed status topic, changes nothing. */
  lemma OtherTopicIgnored(d: Device, m: Message)
    requires |m.payload| < MessageBuffer && Eeprom.Valid(d.store)
    requires m.topic != CommandTopic
    ensures HandleMessage(d, m) == d
  {
  }

  /** "GRANTED" on "doorlock" toggles: locked becomes unlocked, anything else locked. */
  lemma GrantedToggles(d: Device)
    requires Eeprom.Valid(d.store)
    ensures var r := HandleMessage(d, Message(CommandTopic, Granted));
      && (d.lockStatus == StatusLocked ==> r.lockStatus == StatusUnlocked && Quiescent(r) && Persisted(r))
      && (d.lockStatus != StatusLocked ==> r.lockStatus == StatusLocked && Quiescent(r) && Persisted(r))
  {
  }
}

=== FILE: connectivity.dfy ===
/**
 * The connection decisions of `connectWiFi` and `connectMQTT`. WiFi status is an
 * input: `wifi[k]` answers the k-th `WiFi.status() == WL_CONNECTED` query, and a
 * query past the end of the script reads as "not connected".
 */
module Connectivity {
  import Commands

  /** The bound on `try_counter` in `connectWiFi`. */
  const MaxTries: nat := 10

  /** The topics subscribed to after a successful broker connect, in order. */
  const Subscriptions := [Commands.CommandTopic, Commands.StatusTopic]

  /** The broker session: connected with the topics subscribed in it, or not. */
  datatype Session = Disconnected | Connected(topics: seq<string>)

  function Up(wifi: seq<bool>, k: nat): (up: bool)
  {
    k < |wifi| && wifi[k]
  }

  /** Where the retry loop stopped: iterations run, and the number of the next query. */
  datatype Poll = Poll(tries: nat, next: nat)

  /**
   * `while (WiFi.status() != WL_CONNECTED && try_counter < 10)`, entered with
   * `tries` iterations done and the next query numbered `q`. Status is evaluated
   * first, so every check queries it, also the one that finds the counter at 10.
   */
  function RetryLoop(wifi: seq<bool>, q: nat, tries: nat): (p: Poll)
    requires tries <= MaxTries
    ensures tries <= p.tries <= MaxTries
    ensures p.next == q + (p.tries - tries) + 1
    ensures Up(wifi, p.next - 1) || p.tries == MaxTries
    ensures forall k :: q <= k < p.next - 1 ==> !Up(wifi, k)
    decreases MaxTries - tries
  {
    if !Up(wifi, q) && tries < MaxTries then RetryLoop(wifi, q + 1, tries + 1) else Poll(tries, q + 1)
  }

  /** The session after `connectMQTT`, and whether it called `mqtt.connect`. */
  datatype MqttStep = MqttStep(session: Session, attempted: bool)

  /**
   * `connectMQTT()`, whose own status query is numbered `q`; `accepted` is the result
   * of `mqtt.connect("doorlock-esp")`.
   */
  function ConnectMqtt(session: Session, wifi: seq<bool>, q: nat, accepted: bool): (r: MqttStep)
    ensures r.attempted <==> Up(wifi, q) && session.Disconnected?
    ensures !r.attempted ==> r.session == session
    ensures r.attempted ==> (r.session.Connected? <==> accepted)
    ensures r.session.Connected? && session.Disconnected? ==> r.session.topics == Subscriptions
  {
    if !Up(wifi, q) then MqttStep(session, false)
    else if session.Connected? then MqttStep(session, false)
    else if accepted then MqttStep(Connected(Subscriptions), true)
    else MqttStep(Disconnected, true)
  }

  /** The outcome of `connectWiFi`: session, loop iterations, final status, broker attempt. */
  datatype WifiStep = WifiStep(session: Session, tries: nat, associated: bool, attempted: bool)

  /** `connectWiFi()`, whose first status query is numbered `q`. */
  function ConnectWifi(session: Session, wifi: seq<bool>, q: nat, accepted: bool): (r: WifiStep)
    ensures r.tries <= MaxTries
    ensures r.tries < MaxTries ==> Up(wifi, q + r.tries)
    ensures forall k :: q <= k < q + r.tries ==> !Up(wifi, k)
    ensures r.associated <==> Up(wifi, q + r.tries + 1)
    ensures r.attempted <==> r.associated && Up(wifi, q + r.tries + 2) && session.Disconnected?
    ensures r.attempted ==> (r.session.Connected? <==> accepted)
    ensures !r.attempted ==> r.session == session
    ensures r.session != session ==> r.session == Connected(Subscriptions) && accepted
  {
    var p := RetryLoop(wifi, q, 0);
    if Up(wifi, p.next) then
      var m := ConnectMqtt(session, wifi, p.next + 1, accepted);
      WifiStep(m.session, p.tries, true, m.attempted)
    else
      WifiStep(session, p.tries, false, false)
  }
}

=== FILE: controller.dfy ===
/**
 * `setup()` and `loop()`: the control loop that owns the device state. One tick
 * scans for a card, services or restores connectivity, polls the manual override,
 * and drives the indicator, in that order. Everything the hardware, the network
 * and the broker report during a tick is an explicit input.
 */
module Controller {
  import opened Bytes
  import opened Options
  import Eeprom
  import opened Actuator
  import opened Commands
  import opened Scanner
  import opened Connectivity

  /** `rfid_mode` as configured. */
  const ConfiguredMode: int := ReadMode

  /** Device state, broker session, scan mode, and every publish that reached the broker. */
  datatype System = System(dev: Device, session: Session, mode: int, sent: seq<Publication>)

  /**
   * What the outside world reports during one tick: the reader's answer, whether the
   * broker link dropped since the last tick, the scripted WiFi status answers, the
   * result of `mqtt.connect` should it be called, the message `mqtt.loop` delivers
   * if any, and the level read on MANUAL_PIN.
   */
  datatype Inputs = Inputs(
    card: CardRead,
    brokerLost: bool,
    wifi: seq<bool>,
    accepted: bool,
    inbound: Option<Message>,
    manual: Level)

  predicate Valid(s: System)
  {
    Actuator.Valid(s.dev)
  }

  /** What `Tick` asks of its inputs: a begun EEPROM and a payload that fits the buffer. */
  predicate Ready(s: System, i: Inputs)
  {
    Eeprom.Valid(s.dev.store) && (i.inbound.Some? ==> |i.inbound.value.payload| < MessageBuffer)
  }

  /**
   * `setup()` from the flash sector `flash`: outputs low, `connectWiFi()`,
   * `EEPROM.begin`, then `lock_status` read back and re-engaged.
   */
  function Setup(flash: seq<byte>, wifi: seq<bool>, accepted: bool): (s: System)
    requires |flash| == Eeprom.Size
    ensures Valid(s)
    ensures flash[StatusAddress] == StatusLocked ==> s.dev.lockStatus == StatusLocked && s.dev.pulses == [LockPulse]
    ensures flash[StatusAddress] != StatusLocked ==> s.dev.lockStatus == StatusUnlocked && s.dev.pulses == [UnlockPulse]
    ensures Eeprom.Read(s.dev.store, StatusAddress) == s.dev.lockStatus
    ensures forall a :: 0 <= a < Eeprom.Size && a != StatusAddress ==> Eeprom.Read(s.dev.store, a) == flash[a]
    ensures s.sent == [] && s.mode == ConfiguredMode
    ensures s.session == ConnectWifi(Disconnected, wifi, 0, accepted).session
  {
    var boot := Device(StatusUnlocked, Low, Low, Low, Eeprom.Store([], []), []);
    var w := ConnectWifi(Disconnected, wifi, 0, accepted);
    var begun := boot.(store := Eeprom.Begin(flash));
    var read := begun.(lockStatus := Eeprom.Read(begun.store, StatusAddress));
    var dev := if read.lockStatus == StatusLocked then Lock(read) else Unlock(read);
    System(dev, w.session, ConfiguredMode, [])
  }

  /** The broker link dropping between ticks: `mqtt.connected()` now reports false. */
  function Drop(s: System, lost: bool): (r: System)
  {
    if lost then s.(session := Disconnected) else s
  }

  /** `mqtt.publish`: reaches the broker only while connected, and is dropped otherwise. */
  function Publish(s: System, p: Publication): (r: System)
  {
    if s.session.Connected? then s.(sent := s.sent + [p]) else s
  }

  /** The `readRFID()` step of a tick. */
  function Scan(s: System, card: CardRead): (r: System)
    ensures r.dev == s.dev && r.session == s.session && r.mode == s.mode
    ensures |s.sent| <= |r.sent| <= |s.sent| + 1 && r.sent[..|s.sent|] == s.sent
    ensures |r.sent| == |s.sent| + 1 <==> card.Card? && s.session.Connected?
    ensures |r.sent| == |s.sent| + 1 ==>
      && r.sent[|s.sent|].payload == Hex.GetByteString(card.uid)
      && (r.sent[|s.sent|].topic == ReadTopic <==> s.mode == ReadMode)
      && (r.sent[|s.sent|].topic == InsertTopic <==> s.mode != ReadMode)
  {
    match ReadRFID(card, s.mode)
    case None => s
    case Some(p) => Publish(s, p)
  }

  /** The connectivity step's result, with the loop iterations and the broker connect attempt it made. */
  datatype Service = Service(sys: System, wifiTries: nat, attempted: bool, pumped: bool)

  /** The WiFi/MQTT branch of `loop()`; `pumped` says `mqtt.loop()` ran. */
  function Supervise(s: System, i: Inputs): (r: Service)
    requires Ready(s, i)
    ensures r.wifiTries <= MaxTries
    ensures r.sys.sent == s.sent && r.sys.mode == s.mode
    ensures r.pumped <==> Up(i.wifi, 0) && s.session.Connected?
    ensures r.pumped ==> r.sys.session == s.session && !r.attempted && r.wifiTries == 0
    ensures r.pumped && i.inbound.Some? ==> r.sys.dev == HandleMessage(s.dev, i.inbound.value)
    ensures !(r.pumped && i.inbound.Some?) ==> r.sys.dev == s.dev
    ensures Up(i.wifi, 0) && s.session.Disconnected? ==> r.wifiTries == 0 && (r.attempted <==> Up(i.wifi, 1))
    ensures r.attempted ==> s.session.Disconnected?
    ensures r.attempted ==> (r.sys.session.Connected? <==> i.accepted)
    ensures !r.attempted ==> r.sys.session == s.session
    ensures r.sys.session != s.session ==> r.sys.session == Connected(Subscriptions) && i.accepted
    ensures !Up(i.wifi, 0) ==> r.wifiTries < MaxTries ==> Up(i.wifi, 1 + r.wifiTries)
    ensures !Up(i.wifi, 0) ==> forall k :: 1 <= k < 1 + r.wifiTries ==> !Up(i.wifi, k)
    ensures !Up(i.wifi, 0) ==>
      (r.attempted <==> Up(i.wifi, r.wifiTries + 2) && Up(i.wifi, r.wifiTries + 3) && s.session.Disconnected?)
  {
    if Up(i.wifi, 0) then
      if s.session.Connected? then
        var dev := match i.inbound
          case Some(m) => HandleMessage(s.dev, m)
          case None => s.dev;
        Service(s.(dev := dev), 0, false, true)
      else
        var m := ConnectMqtt(s.session, i.wifi, 1, i.accepted);
        Service(s.(session := m.session), 0, m.attempted, false)
    else
      var w := ConnectWifi(s.session, i.wifi, 1, i.accepted);
      Service(s.(session := w.session), w.tries, w.attempted, false)
  }

  /** The manual-override branch of `loop()`; the debounce delay is a no-op. */
  function Override(s: System, manual: Level): (r: System)
    requires Eeprom.Valid(s.dev.store)
    ensures manual == High ==> r.dev == Toggle(s.dev) && r.mode == s.mode
    ensures manual == High ==> r.session == s.session && r.sent == s.sent && Actuator.Valid(r.dev)
    ensures manual == High ==> r.dev.lockStatus != s.dev.lockStatus && |r.dev.pulses| == |s.dev.pulses| + 1
    ensures manual == Low ==> r == s
  {
    if manual == High then s.(dev := Toggle(s.dev)) else s
  }

  /** The indicator branch of `loop()`. */
  function Indicate(s: System): (r: System)
    ensures r.dev.pilotPin == High <==> s.dev.lockStatus == StatusLocked
    ensures r == s.(dev := s.dev.(pilotPin := r.dev.pilotPin))
  {
    s.(dev := s.dev.(pilotPin := if s.dev.lockStatus == StatusLocked then High else Low))
  }

  /** The state after the scan and connectivity steps, before the override. */
  function BeforeOverride(s: System, i: Inputs): (r: System)
    requires Ready(s, i)
    ensures Eeprom.Valid(r.dev.store)
  {
    Supervise(Scan(Drop(s, i.brokerLost), i.card), i).sys
  }

  /** One call of `loop()`. */
  function Tick(s: System, i: Inputs): (r: System)
    requires Ready(s, i)
    ensures r.dev.pilotPin == High <==> r.dev.lockStatus == StatusLocked
    ensures Valid(s) ==> Valid(r)
    ensures |s.sent| <= |r.sent| <= |s.sent| + 1 && r.sent[..|s.sent|] == s.sent
    ensures r.mode == s.mode
    ensures |r.sent| == |s.sent| + 1 <==> i.card.Card? && !i.brokerLost && s.session.Connected?
    ensures |r.sent| == |s.sent| + 1 ==> r.sent[|s.sent|] == ReadRFID(i.card, s.mode).value
    ensures Up(i.wifi, 0) && !i.brokerLost && s.session.Connected? ==> r.session == s.session
    ensures Up(i.wifi, 0) && (i.brokerLost || s.session.Disconnected?) ==>
      (r.session.Connected? <==> Up(i.wifi, 1) && i.accepted)
    ensures !Up(i.wifi, 0) ==>
      r.session == ConnectWifi(Drop(s, i.brokerLost).session, i.wifi, 1, i.accepted).session
  {
    Indicate(Override(BeforeOverride(s, i), i.manual))
  }

  /** A HIGH override input toggles exactly once, after the connectivity step; LOW leaves it alone. */
  lemma TickOverride(s: System, i: Inputs)
    requires Ready(s, i)
    ensures var mid := BeforeOverride(s, i);
      var r := Tick(s, i);
      && (i.manual == High ==>
            && r.dev.lockStatus != mid.dev.lockStatus
            && (mid.dev.lockStatus != StatusLocked ==> r.dev.lockStatus == StatusLocked)
            && |r.dev.pulses| == |mid.dev.pulses| + 1)
      && (i.manual == Low ==> r.dev.lockStatus == mid.dev.lockStatus && r.dev.pulses == mid.dev.pulses)
  {
  }

  /** A tick with no authorizing message and no override moves nothing but the indicator. */
  lemma QuietTick(s: System, i: Inputs)
    requires Ready(s, i)
    requires i.manual == Low
    requires i.inbound.Some? ==> !Authorizes(i.inbound.value)
    ensures Tick(s, i).dev == s.dev.(pilotPin := Tick(s, i).dev.pilotPin)
  {
  }

  /** An event that reaches the toggle rule: an inbound message or an override press. */
  datatype Event = Inbound(m: Message) | Press

  predicate Fits(e: Event)
  {
    e.Inbound? ==> |e.m.payload| < MessageBuffer
  }

  predicate Toggles(e: Event)
  {
    e.Press? || Authorizes(e.m)
  }

  function Apply(d: Device, e: Event): (r: Device)
    requires Eeprom.Valid(d.store) && Fits(e)
    ensures Eeprom.Valid(r.store)
  {
    match e
    case Inbound(m) => HandleMessage(d, m)
    case Press => Toggle(d)
  }

  function Run(d: Device, es: seq<Event>): (r: Device)
    requires Eeprom.Valid(d.store)
    requires forall k :: 0 <= k < |es| ==> Fits(es[k])
    decreases |es|
  {
    if |es| == 0 then d else Run(Apply(d, es[0]), es[1..])
  }

  function CountToggles(es: seq<Event>): (n: nat)
  {
    if |es| == 0 then 0 else (if Toggles(es[0]) then 1 else 0) + CountToggles(es[1..])
  }

  /**
   * Toggle correctness over any sequence of remote and manual events: from a valid
   * state the lock ends where it started exactly when an even number of them toggled.
   */
  lemma {:induction false} RunParity(d: Device, es: seq<Event>)
    requires Actuator.Valid(d)
    requires forall k :: 0 <= k < |es| ==> Fits(es[k])
    ensures Actuator.Valid(Run(d, es))
    ensures Run(d, es).lockStatus == d.lockStatus <==> CountToggles(es) % 2 == 0
    decreases |es|
  {
    if |es| > 0 {
      var d1 := Apply(d, es[0]);
      assert Actuator.Valid(d1);
      assert forall k :: 0 <= k < |es[1..]| ==> Fits(es[1..][k]);
      RunParity(d1, es[1..]);
    }
  }

  /** Rebooting from the committed flash restores the lock status. */
  lemma PowerCycle(s: System, wifi: seq<bool>, accepted: bool)
    requires Valid(s)
    ensures Setup(s.dev.store.flash, wifi, accepted).dev.lockStatus == s.dev.lockStatus
  {
  }

  /** A stored byte other than 1 is normalised to unlocked, and 0 is written back. */
  lemma SetupNormalises(flash: seq<byte>, wifi: seq<bool>, accepted: bool)
    requires |flash| == Eeprom.Size
    requires flash[StatusAddress] != StatusLocked
    ensures var s := Setup(flash, wifi, accepted);
      s.dev.lockStatus == StatusUnlocked && s.dev.store.flash[StatusAddress] == StatusUnlocked
  {
  }

  /**
   * Boot locked with the broker reachable, then one tick delivers "GRANTED" on
   * "doorlock": the lock throws open, 0 is persisted, and the indicator goes out.
   */
  lemma GrantedScenario(flash: seq<byte>)
    requires |flash| == Eeprom.Size && flash[StatusAddress] == StatusLocked
    ensures var s0 := Setup(flash, [true, true, true], true);
      && s0.dev.lockStatus == StatusLocked
      && s0.dev.pulses == [LockPulse]
      && s0.dev.store.flash[StatusAddress] == StatusLocked
      && s0.session == Connected(Subscriptions)
      && var s1 := Tick(s0, Inputs(NoCard, false, [true], false, Some(Message(CommandTopic, Granted)), Low));
      && s1.dev.lockStatus == StatusUnlocked
      && s1.dev.pulses == [LockPulse, UnlockPulse]
      && s1.dev.store.flash[StatusAddress] == StatusUnlocked
      && s1.dev.pilotPin == Low
  {
  }

  /** An override press while unlocked locks the door and lights the indicator. */
  lemma PressScenario(s: System, i: Inputs)
    requires Valid(s) && Ready(s, i)
    requires s.dev.lockStatus == StatusUnlocked
    requires i.manual == High && i.inbound.None?
    ensures Tick(s, i).dev.lockStatus == StatusLocked && Tick(s, i).dev.pilotPin == High
    ensures Tick(s, i).dev.store.flash[StatusAddress] == StatusLocked
  {
  }
}

=== FILE: eeprom.dfy ===
/**
 * The emulated EEPROM of the ESP8266 as the firmware uses it: reads and writes act
 * on a RAM copy of a reserved flash sector, and only `commit` copies that RAM copy
 * back to flash, which is what survives a power cycle.
 */
module Eeprom {
  import opened Bytes

  /** `EEPROM_SIZE`: the number of bytes reserved by `EEPROM.begin`. */
  const Size: nat := 512

  datatype Store = Store(cache: seq<byte>, flash: seq<byte>)

  /** The store after `EEPROM.begin(EEPROM_SIZE)`. */
  predicate Valid(e: Store)
  {
    |e.cache| == Size && |e.flash| == Size
  }

  /** Every byte written so far has reached flash. */
  predicate Committed(e: Store)
  {
    e.flash == e.cache
  }

  /** `EEPROM.begin`: load the flash sector into the RAM copy. */
  function Begin(flash: seq<byte>): (e: Store)
    requires |flash| == Size
    ensures Valid(e) && Committed(e)
    ensures forall a :: 0 <= a < Size ==> Read(e, a) == flash[a]
  {
    Store(flash, flash)
  }

  /** `EEPROM.read`: an address outside the reserved sector reads as 0. */
  function Read(e: Store, address: int): (v: byte)
    ensures Valid(e) && 0 <= address < Size ==> v == e.cache[address]
    ensures !(0 <= address < |e.cache|) ==> v == 0
  {
    if 0 <= address < |e.cache| then e.cache[address] else 0
  }

  /** `EEPROM.write`: changes the RAM copy only; an address outside the sector is ignored. */
  function Write(e: Store, address: int, value: byte): (r: Store)
    ensures r.flash == e.flash && |r.cache| == |e.cache|
    ensures 0 <= address < |e.cache| ==> Read(r, address) == value
    ensures forall a :: a != address ==> Read(r, a) == Read(e, a)
  {
    if 0 <= address < |e.cache| then e.(cache := e.cache[address := value]) else e
  }

  /** `EEPROM.commit`: the flash sector becomes the RAM copy. */
  function Commit(e: Store): (r: Store)
    ensures Committed(r)
    ensures r.cache == e.cache
  {
    e.(flash := e.cache)
  }

  /** A committed write is read back after a power cycle. */
  lemma CommittedWriteSurvivesPowerCycle(e: Store, address: int, value: byte)
    requires Valid(e) && 0 <= address < Size
    ensures Read(Begin(Commit(Write(e, address, value)).flash), address) == value
  {
  }

  /** A write that is not committed is lost on a power cycle. */
  lemma UncommittedWriteIsLost(e: Store, address: int, value: byte)
    requires Valid(e)
    ensures Begin(Write(e, address, value).flash) == Begin(e.flash)
  {
  }
}

=== FILE: hex.dfy ===
/**
 * `getByteString`: the card UID rendered as text. As written, each byte contributes
 * `" 0"` (below 0x10) or `" "`, then Arduino's `String(b, HEX)` (lower-case, no
 * padding); the whole string is then upper-cased. `Format` is the canonical reading
 * of that text (a space and two upper-case digits per byte) and `Parse` its inverse.
 */
module Hex {
  import opened Bytes
  import opened Options

  /** The lower-case hex digit for 0 <= k < 16, as `String(b, HEX)` prints it. */
  function LowerDigit(k: int): (c: char)
    requires 0 <= k < 16
  {
    if k < 10 then ('0' as int + k) as char else ('a' as int + k - 10) as char
  }

  /** The upper-case hex digit for 0 <= k < 16. */
  function UpperDigit(k: int): (c: char)
    requires 0 <= k < 16
  {
    if k < 10 then ('0' as int + k) as char else ('A' as int + k - 10) as char
  }

  /** `String(b, HEX)`: base 16, lower-case digits, no leading zero. */
  function ArduinoHex(b: byte): (r: string)
  {
    if b < 0x10 then [LowerDigit(b)] else [LowerDigit(b / 16), LowerDigit(b % 16)]
  }

  /** What one iteration of the loop appends to `data`. */
  function Piece(b: byte): (r: string)
    ensures |r| == 3 && r[0] == ' '
  {
    (if b < 0x10 then " 0" else " ") + ArduinoHex(b)
  }

  /** `data` after the loop, before `toUpperCase`. */
  function Dump(uid: seq<byte>): (r: string)
    ensures |r| == 3 * |uid|
  {
    if |uid| == 0 then "" else Piece(uid[0]) + Dump(uid[1..])
  }

  /** `toupper` in the C locale: only 'a'..'z' change. */
  function Upper(c: char): (u: char)
  {
    if 'a' <= c <= 'z' then (c as int - 32) as char else c
  }

  /** `String::toUpperCase`. */
  function ToUpperCase(s: string): (r: string)
  {
    seq(|s|, i requires 0 <= i < |s| => Upper(s[i]))
  }

  /** The canonical three characters of one byte. */
  function Cell(b: byte): (r: string)
  {
    [' ', UpperDigit(b / 16), UpperDigit(b % 16)]
  }

  /** Reference rendering: a space and two upper-case, zero-padded digits per byte. */
  function Format(uid: seq<byte>): (r: string)
    ensures |r| == 3 * |uid|
  {
    if |uid| == 0 then "" else Cell(uid[0]) + Format(uid[1..])
  }

  /** Byte i of the UID occupies characters 3i, 3i+1 and 3i+2 of the rendering. */
  lemma {:induction false} FormatAt(uid: seq<byte>, i: int)
    requires 0 <= i < |uid|
    ensures Format(uid)[3 * i..3 * i + 3] == Cell(uid[i])
  {
    if i > 0 {
      FormatAt(uid[1..], i - 1);
      var head, rest := Cell(uid[0]), Format(uid[1..]);
      var j := 3 * (i - 1);
      assert 3 * i == j + 3;
      assert Format(uid) == head + rest && |head| == 3;
      assert (head + rest)[j + 3..j + 6] == rest[j..j + 3];
    }
  }

  /** Every byte is rendered as a space followed by its two upper-case, zero-padded digits. */
  lemma FormatCells(uid: seq<byte>)
    ensures forall i :: 0 <= i < |uid| ==> Format(uid)[3 * i..3 * i + 3] == Cell(uid[i])
  {
    forall i | 0 <= i < |uid|
      ensures Format(uid)[3 * i..3 * i + 3] == Cell(uid[i])
    {
      FormatAt(uid, i);
    }
  }

  lemma ToUpperCaseAppend(a: string, b: string)
    ensures ToUpperCase(a + b) == ToUpperCase(a) + ToUpperCase(b)
  {
  }

  lemma PieceUpper(b: byte)
    ensures ToUpperCase(Piece(b)) == Cell(b)
  {
  }

  /** The loop as written, upper-cased, is the reference rendering. */
  lemma {:induction false} DumpMatchesFormat(uid: seq<byte>)
    ensures ToUpperCase(Dump(uid)) == Format(uid)
  {
    if |uid| > 0 {
      ToUpperCaseAppend(Piece(uid[0]), Dump(uid[1..]));
      PieceUpper(uid[0]);
      DumpMatchesFormat(uid[1..]);
    }
  }

  /** `getByteString(buffer, bufferSize)` with `buffer[0..bufferSize)` as `uid`. */
  function GetByteString(uid: seq<byte>): (r: string)
    ensures r == Format(uid)
    ensures |r| == 3 * |uid|
    ensures |uid| > 0 ==> r[0] == ' '
  {
    DumpMatchesFormat(uid);
    ToUpperCase(Dump(uid))
  }

  predicate IsUpperDigit(c: char)
  {
    '0' <= c <= '9' || 'A' <= c <= 'F'
  }

  function DigitValue(c: char): (k: int)
    requires IsUpperDigit(c)
    ensures 0 <= k < 16 && UpperDigit(k) == c
  {
    if c <= '9' then c as int - '0' as int else c as int - 'A' as int + 10
  }

  /** Reads text in the canonical rendering back into bytes; anything else is `None`. */
  function Parse(s: string): (r: Option<seq<byte>>)
    decreases |s|
  {
    if |s| == 0 then Some([])
    else if |s| < 3 || s[0] != ' ' || !IsUpperDigit(s[1]) || !IsUpperDigit(s[2]) then None
    else
      match Parse(s[3..])
      case None => None
      case Some(rest) => Some([DigitValue(s[1]) * 16 + DigitValue(s[2])] + rest)
  }

  lemma DigitRoundTrip(k: int)
    requires 0 <= k < 16
    ensures IsUpperDigit(UpperDigit(k)) && DigitValue(UpperDigit(k)) == k
  {
  }

  lemma {:induction false} ParseFormat(uid: seq<byte>)
    ensures Parse(Format(uid)) == Some(uid)
  {
    if |uid| > 0 {
      var b := uid[0];
      var s := Format(uid);
      DigitRoundTrip(b / 16);
      DigitRoundTrip(b % 16);
      assert s[3..] == Format(uid[1..]);
      ParseFormat(uid[1..]);
      assert [b] + uid[1..] == uid;
    }
  }

  lemma {:induction false} FormatParse(s: string, uid: seq<byte>)
    requires Parse(s) == Some(uid)
    ensures Format(uid) == s
    decreases |s|
  {
    if |s| > 0 {
      var rest := Parse(s[3..]).value;
      FormatParse(s[3..], rest);
      assert uid == [DigitValue(s[1]) * 16 + DigitValue(s[2])] + rest;
      assert s == s[..3] + s[3..];
    }
  }

  /** The published UID text decodes back to the UID. */
  lemma ByteStringRoundTrip(uid: seq<byte>)
    ensures Parse(GetByteString(uid)) == Some(uid)
  {
    ParseFormat(uid);
  }

  /** Every text that decodes to a UID is exactly that UID's rendering. */
  lemma ByteStringCanonical(s: string, uid: seq<byte>)
    requires Parse(s) == Some(uid)
    ensures GetByteString(uid) == s
  {
    FormatParse(s, uid);
  }

  lemma ByteStringExamples()
    ensures GetByteString([0x04, 0x1A, 0xFF]) == " 04 1A FF"
    ensures GetByteString([0x00]) == " 00"
    ensures GetByteString([]) == ""
  {
  }
}

=== FILE: scanner.dfy ===
/**
 * `readRFID`: when a new card is present and its serial reads, the UID text from
 * `getByteString` is published to "doorlock/read" in READ mode and to
 * "doorlock/insert" in any other mode.
 */
module Scanner {
  import opened Bytes
  import opened Options
  import Hex

  /** `RFID_MODE_READ`; every other value of the C `int rfid_mode` routes to the insert topic. */
  const ReadMode: int := 0

  const ReadTopic := "doorlock/read"
  const InsertTopic := "doorlock/insert"

  /**
   * What the reader reports in one poll: no new card (`PICC_IsNewCardPresent` false),
   * a card whose serial could not be read (`PICC_ReadCardSerial` false), or a UID.
   */
  datatype CardRead = NoCard | ReadFailed | Card(uid: seq<byte>)

  /** One `mqtt.publish(topic, payload)` call. */
  datatype Publication = Publication(topic: string, payload: string)

  /** The publish that `readRFID` issues, if any. */
  function ReadRFID(card: CardRead, mode: int): (r: Option<Publication>)
    ensures r.Some? <==> card.Card?
    ensures r.Some? ==> r.value.payload == Hex.GetByteString(card.uid)
    ensures r.Some? ==> Hex.Parse(r.value.payload) == Some(card.uid)
    ensures r.Some? ==> (r.value.topic == ReadTopic <==> mode == ReadMode)
    ensures r.Some? ==> (r.value.topic == InsertTopic <==> mode != ReadMode)
  {
    match card
    case NoCard => None
    case ReadFailed => None
    case Card(uid) =>
      Hex.ByteStringRoundTrip(uid);
      var data := Hex.GetByteString(uid);
      if mode == ReadMode then Some(Publication(ReadTopic, data)) else Some(Publication(InsertTopic, data))
  }
}
